=== FILE: README.md ===
# Reconciliation service: matching engine and CSV loaders in Dafny

This project models the core of `reconciliation-service`. The service reconciles
system transactions against bank statements.

- **Loaders** (the repository's `ReadTransactionsFromCSV` and `ReadBankStatementsFromCSV`)
  skip the CSV header. They drop rows that are too short (of the records the reader
  hands over; see ## Findings) or whose amount or date does not parse. They keep the rows dated within `[start, end]`, in file order.
- **`UseCase.ReconcileCsv`** loads the system file and every bank file.
  **`UseCase.Reconcile`** takes those loads, returns the empty report if any failed,
  and otherwise runs the matching engine:
  - It indexes the bank statements by (day, `%.2f` of |amount|).
  - Each system transaction, in input order, takes the first candidate under its
    key whose identity (id plus key) is not yet consumed. The lookup amount is
    |amount| for `DEBIT` and the signed amount for any other type.
  - A matched pair whose magnitudes differ adds `|sys - |bank||` to the discrepancy sum.
  - Bank statements whose identity was never consumed are reported unmatched.

Modelling choices:

- **Amounts** are integers in mills (thousandths). The `%.2f` text of a key is the
  datatype `Decimal2(negative, cents)`. Go prints a minus sign for every negative
  value, even one that rounds to `-0.00`. For a finite amount with at most three
  decimals and no negative zero, the sign and the rounded magnitude therefore
  determine the text. `RoundCents` rounds halves upward.
- **Dates** are day numbers. The `Before`/`After` tests on midnight times become
  integer comparisons.
- **Keys and the consumed set** are structured values (`MatchKey`, `Identity`), not
  concatenated strings.
- **Transaction type** keeps the raw text of the CSV column. The value of
  `models.DEBIT` is assumed to be the text `"DEBIT"`; models/transaction.go, which
  defines it, is not available.
- **Parsers and files:** `strconv.ParseFloat` and `time.Parse` are the two fields of
  a `Parsers` value, passed in as parameters. A file is an `Option` of the records
  the CSV reader yields, and `None` means the file could not be opened.
- **Module layout:** `Matching` is the functional engine. `MatchingLoop` is the
  service's imperative loops, proved equal to it. `Repository` holds the loaders.
  `UseCase` holds load combination, failure handling and the whole pipeline.
  `Scenarios` holds worked examples.

The model shows that a transaction and a bank line never pair when the
transaction's lookup amount and the bank line's magnitude differ by a non-zero
whole number of cents. For example, a -100.00 debit and a 90.00 bank line on the same day fall under
different keys. Both are reported unmatched, and the discrepancy sum stays 0
(`Scenarios.DifferentCentsNeverPair`). The magnitudes of a matched pair differ by
less than one cent, so a pair adds less than a cent to the discrepancy sum. The
exception is a debit recorded with a negative amount. It adds |sys| + |bank| when
the magnitudes differ, and 0 otherwise (`Matching.MatchedPairWithinOneCent`).

## Model

| member | source | states |
|---|---|---|
| `Amounts.RoundCents` | domains/reconciliation/usecase/use_case.go:94 | the key's cents are the nearest whole cent to the magnitude, halves rounding up |
| `Amounts.Format2` | domains/reconciliation/usecase/use_case.go:94 | the key text of an amount carries a minus sign exactly when the amount is negative, and its cents are the magnitude rounded to the nearest cent |
| `Amounts.Format2InjectiveOnWholeCents` | domains/reconciliation/usecase/use_case.go:107 | on whole-cent amounts, equal `%.2f` texts mean equal amounts |
| `Matching.NormalizedAmount` | domains/reconciliation/usecase/use_case.go:102-105 | the lookup amount has the transaction's magnitude; it is non-negative for a debit and the signed amount for any other type |
| `Matching.KeysIgnoreSign` | domains/reconciliation/usecase/use_case.go:93-107 | flipping a bank amount's sign never changes its key, nor does flipping a debit's; flipping a non-zero non-debit's sign always changes its key |
| `Matching.Candidates` | domains/reconciliation/usecase/use_case.go:90-96 | the statements under a key: a subsequence of the bank input holding exactly the statements with that key, each as often as it occurs in the input |
| `Matching.BuildIndex` | domains/reconciliation/usecase/use_case.go:90-96 | the index holds, for every key, exactly the statements with that key, in input order; no key maps to an empty list |
| `Matching.FirstFree` | domains/reconciliation/usecase/use_case.go:112-129 | returns the first position whose identity is unconsumed, with every earlier one consumed; none exactly when all are consumed |
| `Matching.MatchOf` | domains/reconciliation/usecase/use_case.go:100-117 | a chosen statement is a candidate under the transaction's key and its identity was not yet consumed |
| `Matching.Discrepancy` | domains/reconciliation/usecase/use_case.go:119-122 | a pair's contribution is non-negative and positive exactly when the magnitudes differ |
| `Matching.Step` | domains/reconciliation/usecase/use_case.go:109-135 | a transaction either matches or is appended to the unmatched list, never both; the match count grows exactly when a free candidate exists; a match consumes the chosen statement's identity under the transaction's key and adds exactly that pair's discrepancy to the sum, while a miss leaves the sum unchanged |
| `Matching.MatchAll` | domains/reconciliation/usecase/use_case.go:99-137 | matched plus unmatched equals the number of transactions; matched equals the number of consumed identities; the sum is non-negative; unmatched is an order-preserving subsequence of the input |
| `Matching.UnmatchedBank` | domains/reconciliation/usecase/use_case.go:140-148 | an order-preserving subsequence of the bank input holding exactly the statements whose identity was not consumed, each as often as it occurs in the input |
| `Matching.Run` | domains/reconciliation/usecase/use_case.go:84-150 | processed counts are the input sizes; matched plus unmatched system equals the system count; matched is at most the bank count; both unmatched lists are subsequences of their inputs; a statement is unmatched exactly when its identity was not consumed, and is then listed as often as it occurs in the bank input; the sum is non-negative |
| `Matching.MatchFromBank` | domains/reconciliation/usecase/use_case.go:109-117 | a matched statement is in the bank input, has the transaction's key, and its own identity was free |
| `Matching.ConsumedAreBankIdentities` | domains/reconciliation/usecase/use_case.go:114-117 | every consumed identity is the identity of some bank statement |
| `Matching.FirstFreeInBankOrder` | domains/reconciliation/usecase/use_case.go:91-128 | first fit over a key's list is first fit over the whole bank input in input order |
| `Matching.FirstFit` | domains/reconciliation/usecase/use_case.go:109-135 | a transaction takes the earliest statement in bank order under its key whose identity is free; it stays unmatched exactly when all such statements are consumed or the key is absent |
| `Matching.MatchedPairAgrees` | domains/reconciliation/usecase/use_case.go:102-109 | a pair has the same day and the same rounded magnitude, and the transaction's lookup amount is non-negative |
| `Matching.MatchedPairWithinOneCent` | domains/reconciliation/usecase/use_case.go:102-122 | paired magnitudes differ by less than one cent; a pair with a non-negative transaction amount adds less than a cent to the sum; a pair with a negative amount is a debit and adds 0 or both magnitudes |
| `Matching.NegativeNonDebitNeverMatches` | domains/reconciliation/usecase/use_case.go:93-109 | a non-debit with a negative amount never finds a candidate |
| `Matching.UnmatchedOnlyGrows` | domains/reconciliation/usecase/use_case.go:131-134 | the unmatched list after a prefix of the transactions is a prefix of the final one |
| `Matching.NegativeNonDebitReported` | domains/reconciliation/usecase/use_case.go:102-134 | a non-debit with a negative amount always ends in the unmatched system list |
| `Matching.WholeCentsMatchAll` | domains/reconciliation/usecase/use_case.go:107-122 | with whole-cent amounts, every pair has equal magnitudes and the matching pass adds nothing to the sum |
| `Matching.WholeCentsNoDiscrepancy` | domains/reconciliation/usecase/use_case.go:119-122 | with whole-cent amounts the report's discrepancy sum is 0 |
| `Matching.NegativeDebitDiscrepancy` | domains/reconciliation/usecase/use_case.go:120-121 | for a debit recorded as negative whose magnitude differs from the bank line's, the discrepancy adds both magnitudes |
| `Matching.OneToOneBankCount` | domains/reconciliation/usecase/use_case.go:112-148 | when bank identities are distinct, matched plus unmatched bank equals the bank count |
| `Matching.UnmatchedBankCount` | domains/reconciliation/usecase/use_case.go:140-148 | with distinct identities, unmatched statements plus consumed identities of the input equal the input size |
| `MatchingLoop.RunLoop` | domains/reconciliation/usecase/use_case.go:84-150 | the service's three loops produce exactly the engine's report |
| `MatchingLoop.IndexLoop` | domains/reconciliation/usecase/use_case.go:90-96 | the append-per-statement loop builds exactly the key-to-candidates index |
| `MatchingLoop.MatchOne` | domains/reconciliation/usecase/use_case.go:100-136 | the candidate scan with its early exit performs exactly one matching step |
| `MatchingLoop.MatchLoop` | domains/reconciliation/usecase/use_case.go:99-137 | the loop over transactions computes exactly the matching pass `MatchAll`, whose contract gives matched plus unmatched equal to the transaction count |
| `MatchingLoop.UnmatchedBankLoop` | domains/reconciliation/usecase/use_case.go:140-148 | the final loop computes exactly `UnmatchedBank`: the statements whose identity is unconsumed, in order and with their input multiplicity |
| `Repository.FilterRows` | domains/reconciliation/repository/repository.go:39-75 | at most one record per data row |
| `Repository.KeptIndices` | domains/reconciliation/repository/repository.go:66-74 | the positions of the kept rows, strictly increasing, each kept, and every kept row included |
| `Repository.FilterRowsFollowsRows` | domains/reconciliation/repository/repository.go:39-75 | the k-th output record is the parse of the k-th kept row: row order kept, one record per kept row |
| `Repository.FilterRowsInRange` | domains/reconciliation/repository/repository.go:66-67 | every output record's day lies in [start, end], both bounds inclusive |
| `Repository.LoadRows` | domains/reconciliation/repository/repository.go:33-47 | the load fails exactly when there is no header or some record cannot be read; otherwise it yields fewer records than the file has |
| `Repository.LoadRowsInRange` | domains/reconciliation/repository/repository.go:66-74 | every loaded record's day lies in [start, end] |
| `Repository.HeaderIsNotData` | domains/reconciliation/repository/repository.go:33-37 | the header's contents never affect the result |
| `Repository.SkippedRowIsDropped` | domains/reconciliation/repository/repository.go:48-64 | a row that does not parse or is out of range is skipped and loading continues |
| `Repository.KeptRowIsAppended` | domains/reconciliation/repository/repository.go:66-74 | a parsed in-range row appends its record after the earlier ones |
| `Repository.AppendRow` | domains/reconciliation/repository/repository.go:39-75 | one more data row either leaves a failed load failed, appends its record, or is skipped |
| `Repository.TransactionRow` | domains/reconciliation/repository/repository.go:49-73 | a transaction row yields a record exactly when it has at least 4 fields and amount and time parse; the fields map to id, amount, type, time |
| `Repository.BankStatementRow` | domains/reconciliation/repository/repository.go:105-128 | a bank row yields a record exactly when it has at least 3 fields and amount and date parse; the fields map to id, amount, date |
| `Repository.ExtraTransactionFieldsIgnored` | domains/reconciliation/repository/repository.go:68-73 | trailing fields beyond the fourth do not change the record |
| `Repository.ExtraBankFieldsIgnored` | domains/reconciliation/repository/repository.go:124-128 | trailing fields beyond the third do not change the record |
| `Repository.ReadTransactionsFromCsv` | domains/reconciliation/repository/repository.go:23-77 | an unopenable file fails the load; every loaded transaction is dated in [start, end] |
| `Repository.ReadBankStatementsFromCsv` | domains/reconciliation/repository/repository.go:79-132 | an unopenable file fails the load; every loaded statement is dated in [start, end] |
| `Repository.ShortTransactionRowSkipped` | domains/reconciliation/repository/repository.go:49-52 | a transaction row with fewer than 4 fields is skipped |
| `Repository.ShortBankRowSkipped` | domains/reconciliation/repository/repository.go:105-108 | a bank row with fewer than 3 fields is skipped |
| `Repository.EnforceHeaderArity` | domains/reconciliation/repository/repository.go:30 | the reader as configured turns every later record whose field count differs from the header's into a read error |
| `Repository.LoadRowsAsWritten` | domains/reconciliation/repository/repository.go:30-52 | as written, a data row whose field count differs from the header's fails the whole load |
| `Repository.ShortRowAbortsAsWritten` | domains/reconciliation/repository/repository.go:44-52 | a 3-field row under a 4-field header fails the load as written but is skipped by the corrected loader |
| `UseCase.LoadBankSources` | domains/reconciliation/usecase/use_case.go:53-66 | the bank load succeeds exactly when every source loads; it then holds all their statements |
| `UseCase.SourcesInPathOrder` | domains/reconciliation/usecase/use_case.go:55-62 | each source's statements form a contiguous slice, placed right after those of the sources before it |
| `UseCase.Reconcile` | domains/reconciliation/usecase/use_case.go:69-86 | any failed load gives zero counts, zero sum and empty lists; otherwise the processed counts are the loaded sizes and matched plus unmatched system equals the system count |
| `UseCase.ReconcileOutcomesAsWritten` | domains/reconciliation/usecase/use_case.go:34-82 | the reports the two selects can return: one when both loads succeed, and the empty report among them when one fails |
| `UseCase.FailedLoadMayStillReconcile` | domains/reconciliation/usecase/use_case.go:40-82 | as written, a failed system load can still yield a non-empty report |
| `UseCase.FailedBankLoadMayStillReconcile` | domains/reconciliation/usecase/use_case.go:53-82 | as written, a failed bank load can still yield a non-empty report |
| `UseCase.ReconcileIsOneSchedule` | domains/reconciliation/usecase/use_case.go:69-82 | the abort-on-failure report is always one of the as-written outcomes |
| `UseCase.ReconcileCsv` | domains/reconciliation/usecase/use_case.go:38-66 | every unmatched record in the final report is dated in [start, end] |
| `UseCase.UnmatchedFromInputs` | domains/reconciliation/usecase/use_case.go:131-146 | every unmatched record comes from the loaded inputs |
| `UseCase.BankSourcesInRange` | domains/reconciliation/usecase/use_case.go:55-62 | concatenating in-range sources keeps every statement in range |
| `Scenarios.DebitPairsWithMagnitude` | domains/reconciliation/usecase/use_case.go:102-122 | a -100.00 debit pairs with a 100.00 bank line on the same day, with no discrepancy |
| `Scenarios.SubCentDifferenceIsDiscrepancy` | domains/reconciliation/usecase/use_case.go:107-122 | 100.004 against 100.000 pairs under the key 100.00 and adds 0.004 to the sum |
| `Scenarios.SinglePair` | domains/reconciliation/usecase/use_case.go:109-122 | one transaction and one statement under the same key form one pair |
| `Scenarios.DifferentCentsNeverPair` | domains/reconciliation/usecase/use_case.go:94-134 | -100.00 against 90.00 does not pair; both are unmatched and the sum is 0 |
| `Scenarios.LoneCreditUnmatched` | domains/reconciliation/usecase/use_case.go:132-134 | a credit with no bank line under its key is unmatched |
| `Scenarios.DuplicateKeysConsumedInOrder` | domains/reconciliation/usecase/use_case.go:112-128 | two equal debits take two same-key statements B1 then B2, leaving nothing unmatched |
| `Scenarios.TwoPairsInOrder` | domains/reconciliation/usecase/use_case.go:112-128 | under one key, the first transaction takes the first statement and the second takes the second |

## Left out

- Goroutines, channels and `select` (use_case.go:34-82) are not run. Loading is sequential and
  returns `Option`. `ReconcileOutcomesAsWritten` captures the scheduling outcomes as a set of
  reports. The goroutine left blocked after an early return is not modelled.
- Logging (`fmt.Printf`, `log.Printf`) is left out. It has no effect on results.
- Amounts are assumed finite, with at most three decimals, and negative zero is read as zero.
  `strconv.ParseFloat` also accepts "NaN", "Inf", "-0" and longer fractions, and the source
  keeps such rows. In Go a NaN pair makes the sum NaN, a non-debit's "-0.00" amount keys as "-0.00" and
  never pairs with a "0.00" line, and "100.0049" pairs with "100.00" and adds 0.0049. None of
  these is modelled.
- `float64` arithmetic is left out. Amounts are exact integers in mills, so the discrepancy sum
  has no floating-point rounding.
- `Amounts.RoundCents` rounds exact halves up. Go's `%.2f` rounds the binary value: 1.005 is
  stored just below 1.005 and prints "1.00". Keys of amounts on an exact half-cent may
  therefore differ from the source.
- `Amounts.Format2`: its cents come from `RoundCents`, so exact half-cents round up as described above.
- Keys are structured tuples. The string keys of the source can collide when an identifier
  contains `_`, and those collisions are not modelled.
- File opening, the CSV tokenizer, `strconv.ParseFloat` and `time.Parse` are not modelled.
  They are an `Option` file of records and the two `Parsers` fields given from outside.
- Start and end dates are whole days. A non-midnight `start` or `end` is not modelled.
- `TotalMatched` is `int64` in the source. Its overflow is not modelled.
- Running the engine twice on the same inputs gives the same report because the engine is a
  pure function. This needs no lemma.
- models/transaction.go is not part of this model. The `Transaction` fields are taken from
  their uses in the two core files. The value of `models.DEBIT` is assumed to be the text
  "DEBIT"; models/transaction.go, which defines it, is not available.
- main.go (hard-coded paths and printing) and domains/reconciliation/reconciliation.go
  (interfaces only) are not part of this model.
- `Repository.FilterRows`: its own contract states only the size bound. The full
  correspondence between output records and kept rows is in `Repository.FilterRowsFollowsRows`.

## Findings

| source | as written | input that shows it | evidently intended | confidence | as-written member | corrected member |
|---|---|---|---|---|---|---|
| domains/reconciliation/usecase/use_case.go:69-82 | A failed load sends its error and then closes its channel. A receive from a closed channel is always ready and yields a nil slice, so either `select` may take it instead of the error. Reconciliation then runs with one side empty. | The system file cannot be opened and one bank file loads one statement. One schedule returns a report with 1 processed bank statement, listed as unmatched. | Any failed load returns the empty report. | not executed; high (Go's `select` picks among ready cases at random) | `UseCase.ReconcileOutcomesAsWritten`, `UseCase.FailedLoadMayStillReconcile` | `UseCase.Reconcile`, `UseCase.ReconcileIsOneSchedule` |
| domains/reconciliation/repository/repository.go:30-52 | `csv.NewReader` leaves `FieldsPerRecord` at 0. Any record whose field count differs from the header's is then a read error, and the error fails the whole load. The `len(record) < 4` skip only runs when the header is short too. | Header `trxID,amount,type,transactionTime`, then the row `T1,10.00,CREDIT`. | The short row is skipped, and loading continues with an empty result. | not executed; high (documented default of Go's `encoding/csv`) | `Repository.LoadRowsAsWritten`, `Repository.ShortRowAbortsAsWritten` | `Repository.LoadRows`, `Repository.ShortTransactionRowSkipped` |

=== FILE: amounts.dfy ===
/** Money amounts and the `%.2f` text the matching keys are built from. */
module Amounts {

  /** Amounts are integers counted in mills (thousandths of the currency unit),
      one decimal place finer than the cents the keys are rounded to. */
  const MillsPerCent: nat := 10

  function Abs(a: int): (m: nat)
    ensures m == a || m == -a
  {
    if a < 0 then -a else a
  }

  /** Rounds a magnitude in mills to the nearest whole cent, halves upwards. */
  function RoundCents(m: nat): (c: nat)
    ensures MillsPerCent * c <= m + MillsPerCent / 2 < MillsPerCent * (c + 1)
  {
    (m + MillsPerCent / 2) / MillsPerCent
  }

  /** The text `%.2f` prints for an amount, as its two observable parts: the
      leading minus sign (printed for every negative value, also for one that
      rounds to "-0.00") and the magnitude rounded to cents. */
  datatype Decimal2 = Decimal2(negative: bool, cents: nat)

  function Format2(a: int): (r: Decimal2)
    ensures r.negative <==> a < 0
    ensures MillsPerCent * r.cents <= Abs(a) + MillsPerCent / 2 < MillsPerCent * (r.cents + 1)
  {
    Decimal2(a < 0, RoundCents(Abs(a)))
  }

  /** An amount that is a whole number of cents. */
  predicate WholeCents(a: int) {
    a % MillsPerCent == 0
  }

  /** On whole-cent amounts `%.2f` loses nothing: equal texts mean equal amounts. */
  lemma Format2InjectiveOnWholeCents(a: int, b: int)
    requires WholeCents(a) && WholeCents(b)
    requires Format2(a) == Format2(b)
    ensures a == b
  {
    WholeCentsRoundExactly(Abs(a));
    WholeCentsRoundExactly(Abs(b));
  }

  /** A whole-cent magnitude rounds to exactly its own number of cents. */
  lemma WholeCentsRoundExactly(m: nat)
    requires WholeCents(m)
    ensures MillsPerCent * RoundCents(m) == m
  {
  }

  /** The magnitude of a whole-cent amount is a whole-cent amount. */
  lemma AbsKeepsWholeCents(a: int)
    requires WholeCents(a)
    ensures WholeCents(Abs(a))
  {
  }
}

=== FILE: matching.dfy ===
/** The matching engine of `UseCase.Reconcile` once both record sets are
    loaded: index the bank statements by (day, rounded magnitude), pair every
    system transaction with the first unconsumed candidate under its key,
    accumulate discrepancies, and list the bank statements nobody consumed. */
module Matching {
  import opened Wrappers
  import opened Amounts
  import opened Models
  import opened Sequences

  /** Lookup key: the calendar day and the `%.2f` text of an amount. */
  datatype MatchKey = MatchKey(day: Day, amount: Decimal2)

  /** What the consumed set records for a bank statement: its identifier and key. */
  datatype Identity = Identity(id: string, key: MatchKey)

  /** A bank statement is indexed under its day and its magnitude. */
  function BankKey(b: BankStatement): MatchKey {
    MatchKey(b.date, Format2(Abs(b.amount)))
  }

  function IdentityOf(b: BankStatement): Identity {
    Identity(b.uniqueIdentifier, BankKey(b))
  }

  predicate IsDebit(t: Transaction) {
    t.kind == Debit
  }

  /** A debit is looked up by its magnitude, any other transaction by its signed amount. */
  function NormalizedAmount(t: Transaction): (n: int)
    ensures Abs(n) == Abs(t.amount)
    ensures IsDebit(t) ==> n >= 0
    ensures !IsDebit(t) ==> n == t.amount
  {
    if IsDebit(t) then Abs(t.amount) else t.amount
  }

  function TrxKey(t: Transaction): MatchKey {
    MatchKey(t.transactionTime, Format2(NormalizedAmount(t)))
  }

  /** The sign of a bank amount never reaches its key, and neither does the sign
      of a debit; a non-debit's key keeps its sign. */
  lemma KeysIgnoreSign(b: BankStatement, t: Transaction)
    ensures BankKey(b) == BankKey(b.(amount := -b.amount))
    ensures IsDebit(t) ==> TrxKey(t) == TrxKey(t.(amount := -t.amount))
    ensures !IsDebit(t) && t.amount != 0 ==> TrxKey(t) != TrxKey(t.(amount := -t.amount))
  {
  }

  /** Reference definition: the bank statements carrying key `k`, in input order. */
  function Candidates(bank: seq<BankStatement>, k: MatchKey): (cs: seq<BankStatement>)
    ensures IsSubsequence(cs, bank)
    ensures forall b :: b in cs <==> b in bank && BankKey(b) == k
    ensures forall b :: multiset(cs)[b] == if BankKey(b) == k then multiset(bank)[b] else 0
    decreases |bank|
  {
    if |bank| == 0 then []
    else
      var b := bank[|bank| - 1];
      var prev := Candidates(bank[..|bank| - 1], k);
      assert bank == bank[..|bank| - 1] + [b];
      CandidatesStep(prev, bank[..|bank| - 1], b, k);
      if BankKey(b) == k then prev + [b] else prev
  }

  /** One more statement keeps the candidate list exact. */
  lemma CandidatesStep(cs: seq<BankStatement>, pre: seq<BankStatement>, b: BankStatement, k: MatchKey)
    requires IsSubsequence(cs, pre)
    requires forall x :: multiset(cs)[x] == if BankKey(x) == k then multiset(pre)[x] else 0
    ensures IsSubsequence(if BankKey(b) == k then cs + [b] else cs, pre + [b])
    ensures forall x :: multiset(if BankKey(b) == k then cs + [b] else cs)[x] == if BankKey(x) == k then multiset(pre + [b])[x] else 0
    ensures forall x :: x in (if BankKey(b) == k then cs + [b] else cs) <==> x in pre + [b] && BankKey(x) == k
  {
    assert multiset(pre + [b]) == multiset(pre) + multiset{b};
    assert multiset(cs + [b]) == multiset(cs) + multiset{b};
    if BankKey(b) == k {
      SubsequenceAppendBoth(cs, pre, b);
    } else {
      SubsequenceAppendRight(cs, pre, b);
    }
  }

  /** The index from key to the bank statements sharing it. */
  type Index = map<MatchKey, seq<BankStatement>>

  /** The candidates an index holds for `k`; an absent key holds none. */
  function Lookup(idx: Index, k: MatchKey): seq<BankStatement> {
    if k in idx then idx[k] else []
  }

  /** Builds the index by appending each statement to the list under its key. */
  function BuildIndex(bank: seq<BankStatement>): (idx: Index)
    ensures forall k :: Lookup(idx, k) == Candidates(bank, k)
    ensures forall k :: k in idx ==> |idx[k]| > 0
    decreases |bank|
  {
    if |bank| == 0 then map[]
    else
      var idx := BuildIndex(bank[..|bank| - 1]);
      var b := bank[|bank| - 1];
      var k := BankKey(b);
      idx[k := Lookup(idx, k) + [b]]
  }

  /** Position of the first candidate whose identity under `key` is not yet consumed. */
  function FirstFree(cands: seq<BankStatement>, key: MatchKey, consumed: set<Identity>): (r: Option<nat>)
    ensures r.Some? ==> r.value < |cands| && Identity(cands[r.value].uniqueIdentifier, key) !in consumed
    ensures r.Some? ==> forall j :: 0 <= j < r.value ==> Identity(cands[j].uniqueIdentifier, key) in consumed
    ensures r.None? <==> forall j :: 0 <= j < |cands| ==> Identity(cands[j].uniqueIdentifier, key) in consumed
    decreases |cands|
  {
    if |cands| == 0 then None
    else if Identity(cands[0].uniqueIdentifier, key) !in consumed then Some(0)
    else
      match FirstFree(cands[1..], key, consumed)
      case None => None
      case Some(i) => Some(i + 1)
  }

  /** The bank statement transaction `t` pairs with, given what is already consumed. */
  function MatchOf(idx: Index, consumed: set<Identity>, t: Transaction): (r: Option<BankStatement>)
    ensures r.Some? ==> r.value in Lookup(idx, TrxKey(t))
    ensures r.Some? ==> Identity(r.value.uniqueIdentifier, TrxKey(t)) !in consumed
  {
    var key := TrxKey(t);
    if key in idx then
      match FirstFree(idx[key], key, consumed)
      case Some(i) => Some(idx[key][i])
      case None => None
    else None
  }

  /** What a matched pair adds to the discrepancy sum. */
  function Discrepancy(t: Transaction, b: BankStatement): (d: int)
    ensures d >= 0
    ensures d > 0 <==> Abs(t.amount) != Abs(b.amount)
  {
    if Abs(t.amount) != Abs(b.amount) then Abs(t.amount - Abs(b.amount)) else 0
  }

  /** The accumulators of the matching pass. */
  datatype Progress = Progress(matched: nat, unmatchedSystem: seq<Transaction>, discrepancySum: int, consumed: set<Identity>)

  /** Processing one system transaction: it either matches, consuming exactly one
      new identity, or is appended to the unmatched list, never both. A match
      consumes the chosen statement's identity under the transaction's key and
      adds that pair's discrepancy to the sum. */
  function Step(idx: Index, p: Progress, t: Transaction): (q: Progress)
    ensures q.matched == p.matched + 1 <==> MatchOf(idx, p.consumed, t).Some?
    ensures MatchOf(idx, p.consumed, t).Some? ==>
      var b := MatchOf(idx, p.consumed, t).value;
      && q.consumed == p.consumed + {Identity(b.uniqueIdentifier, TrxKey(t))}
      && q.discrepancySum == p.discrepancySum + Discrepancy(t, b)
    ensures
      || (&& q.matched == p.matched + 1
          && q.unmatchedSystem == p.unmatchedSystem
          && q.discrepancySum >= p.discrepancySum
          && p.consumed < q.consumed
          && |q.consumed| == |p.consumed| + 1)
      || (&& q.matched == p.matched
          && q.unmatchedSystem == p.unmatchedSystem + [t]
          && q.discrepancySum == p.discrepancySum
          && q.consumed == p.consumed)
  {
    match MatchOf(idx, p.consumed, t)
    case Some(b) =>
      Progress(p.matched + 1, p.unmatchedSystem, p.discrepancySum + Discrepancy(t, b),
               p.consumed + {Identity(b.uniqueIdentifier, TrxKey(t))})
    case None =>
      Progress(p.matched, p.unmatchedSystem + [t], p.discrepancySum, p.consumed)
  }

  /** The matching pass over the system transactions, in input order. */
  function MatchAll(idx: Index, ts: seq<Transaction>): (p: Progress)
    ensures p.matched + |p.unmatchedSystem| == |ts|
    ensures p.matched == |p.consumed|
    ensures p.discrepancySum >= 0
    ensures IsSubsequence(p.unmatchedSystem, ts)
    decreases |ts|
  {
    if |ts| == 0 then Progress(0, [], 0, {})
    else
      var t := ts[|ts| - 1];
      var prev := MatchAll(idx, ts[..|ts| - 1]);
      assert ts == ts[..|ts| - 1] + [t];
      SubsequenceAppendBoth(prev.unmatchedSystem, ts[..|ts| - 1], t);
      SubsequenceAppendRight(prev.unmatchedSystem, ts[..|ts| - 1], t);
      Step(idx, prev, t)
  }

  /** The bank statements whose identity was never consumed, in input order. */
  function UnmatchedBank(bank: seq<BankStatement>, consumed: set<Identity>): (u: seq<BankStatement>)
    ensures IsSubsequence(u, bank)
    ensures forall b :: b in u <==> b in bank && IdentityOf(b) !in consumed
    ensures forall b :: multiset(u)[b] == if IdentityOf(b) in consumed then 0 else multiset(bank)[b]
    decreases |bank|
  {
    if |bank| == 0 then []
    else
      var b := bank[|bank| - 1];
      var prev := UnmatchedBank(bank[..|bank| - 1], consumed);
      assert bank == bank[..|bank| - 1] + [b];
      UnmatchedBankStep(prev, bank[..|bank| - 1], b, consumed);
      if IdentityOf(b) !in consumed then prev + [b] else prev
  }

  /** One more statement keeps the unmatched-bank list exact. */
  lemma UnmatchedBankStep(u: seq<BankStatement>, pre: seq<BankStatement>, b: BankStatement, consumed: set<Identity>)
    requires IsSubsequence(u, pre)
    requires forall x :: multiset(u)[x] == if IdentityOf(x) in consumed then 0 else multiset(pre)[x]
    ensures IsSubsequence(if IdentityOf(b) !in consumed then u + [b] else u, pre + [b])
    ensures forall x :: multiset(if IdentityOf(b) !in consumed then u + [b] else u)[x] ==
                        if IdentityOf(x) in consumed then 0 else multiset(pre + [b])[x]
    ensures forall x :: x in (if IdentityOf(b) !in consumed then u + [b] else u) <==> x in pre + [b] && IdentityOf(x) !in consumed
  {
    assert multiset(pre + [b]) == multiset(pre) + multiset{b};
    assert multiset(u + [b]) == multiset(u) + multiset{b};
    if IdentityOf(b) !in consumed {
      SubsequenceAppendBoth(u, pre, b);
    } else {
      SubsequenceAppendRight(u, pre, b);
    }
  }

  /** The identities of a list of bank statements. */
  function IdentitiesOf(bank: seq<BankStatement>): set<Identity> {
    set b | b in bank :: IdentityOf(b)
  }

  /** The identities consumed by matching `sys` against `bank`. */
  function Consumed(sys: seq<Transaction>, bank: seq<BankStatement>): set<Identity> {
    MatchAll(BuildIndex(bank), sys).consumed
  }

  /** The engine: counts, matching pass, unmatched-bank pass. */
  function Run(sys: seq<Transaction>, bank: seq<BankStatement>): (r: Report)
    ensures r.totalProcessedSystemTrx == |sys| && r.totalProcessedBankStmnt == |bank|
    ensures r.totalMatched + |r.totalUnmatchedSystem| == |sys|
    ensures r.totalMatched <= |bank|
    ensures IsSubsequence(r.totalUnmatchedSystem, sys)
    ensures IsSubsequence(r.totalUnmatchedBank, bank)
    ensures forall b :: b in r.totalUnmatchedBank <==> b in bank && IdentityOf(b) !in Consumed(sys, bank)
    ensures forall b :: multiset(r.totalUnmatchedBank)[b] ==
                        if IdentityOf(b) in Consumed(sys, bank) then 0 else multiset(bank)[b]
    ensures r.totalDiscrepancySum >= 0
  {
    var p := MatchAll(BuildIndex(bank), sys);
    ConsumedAreBankIdentities(bank, sys);
    IdentitiesBound(bank);
    SubsetNoLarger(p.consumed, IdentitiesOf(bank));
    Report(|sys|, |bank|, p.matched, p.unmatchedSystem, UnmatchedBank(bank, p.consumed), p.discrepancySum)
  }

  // ---------------------------------------------------------------------------
  // Lemmas

  /** One-step unfoldings of the folds at their last element. */

  lemma MatchAllSnoc(idx: Index, ts: seq<Transaction>, t: Transaction)
    ensures MatchAll(idx, ts + [t]) == Step(idx, MatchAll(idx, ts), t)
  {
    assert (ts + [t])[..|ts|] == ts;
  }

  lemma BuildIndexSnoc(bank: seq<BankStatement>, b: BankStatement)
    ensures BuildIndex(bank + [b]) == BuildIndex(bank)[BankKey(b) := Lookup(BuildIndex(bank), BankKey(b)) + [b]]
  {
    assert (bank + [b])[..|bank|] == bank;
  }

  lemma BuildIndexStep(bank: seq<BankStatement>, i: nat)
    requires i < |bank|
    ensures BuildIndex(bank[..i + 1]) == BuildIndex(bank[..i])[BankKey(bank[i]) := Lookup(BuildIndex(bank[..i]), BankKey(bank[i])) + [bank[i]]]
  {
    assert bank[..i + 1] == bank[..i] + [bank[i]];
    BuildIndexSnoc(bank[..i], bank[i]);
  }

  lemma UnmatchedBankSnoc(bank: seq<BankStatement>, b: BankStatement, consumed: set<Identity>)
    ensures UnmatchedBank(bank + [b], consumed)
         == UnmatchedBank(bank, consumed) + (if IdentityOf(b) in consumed then [] else [b])
  {
    assert (bank + [b])[..|bank|] == bank;
  }


  /** A matched statement comes from the input, and its identity under the
      transaction's key is its own identity. */
  lemma MatchFromBank(bank: seq<BankStatement>, consumed: set<Identity>, t: Transaction)
    ensures MatchOf(BuildIndex(bank), consumed, t).Some? ==>
      var b := MatchOf(BuildIndex(bank), consumed, t).value;
      && b in bank
      && BankKey(b) == TrxKey(t)
      && IdentityOf(b) !in consumed
  {
    var idx := BuildIndex(bank);
    assert Lookup(idx, TrxKey(t)) == Candidates(bank, TrxKey(t));
  }

  /** Every consumed identity is the identity of some bank statement. */
  lemma {:induction false} ConsumedAreBankIdentities(bank: seq<BankStatement>, ts: seq<Transaction>)
    ensures MatchAll(BuildIndex(bank), ts).consumed <= IdentitiesOf(bank)
    decreases |ts|
  {
    if |ts| > 0 {
      var idx := BuildIndex(bank);
      var t := ts[|ts| - 1];
      var prev := MatchAll(idx, ts[..|ts| - 1]);
      ConsumedAreBankIdentities(bank, ts[..|ts| - 1]);
      MatchFromBank(bank, prev.consumed, t);
    }
  }

  /** There are no more identities than bank statements. */
  lemma {:induction false} IdentitiesBound(bank: seq<BankStatement>)
    ensures |IdentitiesOf(bank)| <= |bank|
    decreases |bank|
  {
    if |bank| > 0 {
      var pre := bank[..|bank| - 1];
      var b := bank[|bank| - 1];
      assert bank == pre + [b];
      assert IdentitiesOf(bank) == IdentitiesOf(pre) + {IdentityOf(b)};
      IdentitiesBound(pre);
    }
  }

  /** The statements under `key` that are still free are all consumed, in bank order. */
  ghost predicate AllTaken(bank: seq<BankStatement>, key: MatchKey, consumed: set<Identity>) {
    forall j :: 0 <= j < |bank| && BankKey(bank[j]) == key ==> IdentityOf(bank[j]) in consumed
  }

  /** `bank[i]` is the earliest statement under `key` whose identity is free. */
  ghost predicate EarliestFree(bank: seq<BankStatement>, key: MatchKey, consumed: set<Identity>, i: int) {
    && 0 <= i < |bank|
    && BankKey(bank[i]) == key
    && IdentityOf(bank[i]) !in consumed
    && forall j :: 0 <= j < i && BankKey(bank[j]) == key ==> IdentityOf(bank[j]) in consumed
  }

  /** First fit on a list extended by one candidate keeps an earlier free
      candidate, and otherwise falls to the new one when it is free. */
  lemma {:induction false} FirstFreeAppend(cs: seq<BankStatement>, b: BankStatement, key: MatchKey, consumed: set<Identity>)
    ensures FirstFree(cs + [b], key, consumed) ==
      if FirstFree(cs, key, consumed).Some? then FirstFree(cs, key, consumed)
      else if Identity(b.uniqueIdentifier, key) !in consumed then Some(|cs|)
      else None
    decreases |cs|
  {
    if |cs| > 0 {
      assert (cs + [b])[1..] == cs[1..] + [b];
      FirstFreeAppend(cs[1..], b, key, consumed);
    }
  }

  /** First fit over the candidates under `key` picks the earliest free
      statement under `key` in bank order, and finds none exactly when all of
      them are consumed. */
  ghost predicate FirstFitSpec(bank: seq<BankStatement>, key: MatchKey, consumed: set<Identity>) {
    FirstFitOn(bank, Candidates(bank, key), key, consumed)
  }

  /** First fit over the list `cs` agrees with first fit over `bank`. */
  ghost predicate FirstFitOn(bank: seq<BankStatement>, cs: seq<BankStatement>, key: MatchKey, consumed: set<Identity>) {
    var f := FirstFree(cs, key, consumed);
    && (f.None? <==> AllTaken(bank, key, consumed))
    && (f.Some? ==> exists i :: EarliestFree(bank, key, consumed, i) && cs[f.value] == bank[i])
  }

  /** First fit over the key's candidates is first fit over the whole bank input. */
  lemma {:induction false} FirstFreeInBankOrder(bank: seq<BankStatement>, key: MatchKey, consumed: set<Identity>)
    ensures FirstFitSpec(bank, key, consumed)
    decreases |bank|
  {
    if |bank| > 0 {
      var pre := bank[..|bank| - 1];
      assert bank == pre + [bank[|bank| - 1]];
      FirstFreeInBankOrder(pre, key, consumed);
      FirstFitSpecSnoc(pre, bank[|bank| - 1], key, consumed);
    }
  }

  lemma FirstFitSpecSnoc(pre: seq<BankStatement>, b: BankStatement, key: MatchKey, consumed: set<Identity>)
    requires FirstFitSpec(pre, key, consumed)
    ensures FirstFitSpec(pre + [b], key, consumed)
  {
    var bank := pre + [b];
    assert bank[..|bank| - 1] == pre;
    assert forall j :: 0 <= j < |pre| ==> bank[j] == pre[j];
    if BankKey(b) == key {
      assert Candidates(bank, key) == Candidates(pre, key) + [b];
      FirstFitSpecSnocKeyed(pre, Candidates(pre, key), b, key, consumed);
    } else {
      assert Candidates(bank, key) == Candidates(pre, key);
      FirstFitSpecSnocOther(pre, Candidates(pre, key), b, key, consumed);
    }
  }

  lemma FirstFitSpecSnocKeyed(pre: seq<BankStatement>, cs: seq<BankStatement>, b: BankStatement, key: MatchKey, consumed: set<Identity>)
    requires FirstFitOn(pre, cs, key, consumed)
    requires BankKey(b) == key
    ensures FirstFitOn(pre + [b], cs + [b], key, consumed)
  {
    var bank := pre + [b];
    var f := FirstFree(cs, key, consumed);
    assert forall j :: 0 <= j < |pre| ==> bank[j] == pre[j];
    FirstFreeAppend(cs, b, key, consumed);
    if f.Some? {
      var i :| EarliestFree(pre, key, consumed, i) && cs[f.value] == pre[i];
      assert EarliestFree(bank, key, consumed, i);
      assert (cs + [b])[f.value] == bank[i];
    } else if IdentityOf(b) !in consumed {
      assert EarliestFree(bank, key, consumed, |pre|);
      assert (cs + [b])[|cs|] == bank[|pre|];
    } else {
      assert AllTaken(bank, key, consumed);
    }
  }

  lemma FirstFitSpecSnocOther(pre: seq<BankStatement>, cs: seq<BankStatement>, b: BankStatement, key: MatchKey, consumed: set<Identity>)
    requires FirstFitOn(pre, cs, key, consumed)
    requires BankKey(b) != key
    ensures FirstFitOn(pre + [b], cs, key, consumed)
  {
    var bank := pre + [b];
    var f := FirstFree(cs, key, consumed);
    assert forall j :: 0 <= j < |pre| ==> bank[j] == pre[j];
    if f.Some? {
      var i :| EarliestFree(pre, key, consumed, i) && cs[f.value] == pre[i];
      assert EarliestFree(bank, key, consumed, i);
    } else {
      assert AllTaken(bank, key, consumed);
    }
  }

  /** First fit: a transaction takes the earliest statement, in bank input order,
      under its key whose identity is still free; it stays unmatched exactly when
      there is none (also when the key is absent). */
  lemma FirstFit(bank: seq<BankStatement>, consumed: set<Identity>, t: Transaction)
    ensures MatchOf(BuildIndex(bank), consumed, t).None? <==> AllTaken(bank, TrxKey(t), consumed)
    ensures MatchOf(BuildIndex(bank), consumed, t).Some? ==>
      exists i :: EarliestFree(bank, TrxKey(t), consumed, i)
             && MatchOf(BuildIndex(bank), consumed, t).value == bank[i]
  {
    var idx := BuildIndex(bank);
    var key := TrxKey(t);
    assert Lookup(idx, key) == Candidates(bank, key);
    FirstFreeInBankOrder(bank, key, consumed);
  }

  /** A pair is formed only on the same day and the same rounded magnitude; the
      lookup amount of the transaction must be non-negative. */
  lemma MatchedPairAgrees(bank: seq<BankStatement>, consumed: set<Identity>, t: Transaction)
    ensures MatchOf(BuildIndex(bank), consumed, t).Some? ==>
      var b := MatchOf(BuildIndex(bank), consumed, t).value;
      && b.date == t.transactionTime
      && NormalizedAmount(t) >= 0
      && RoundCents(Abs(b.amount)) == RoundCents(NormalizedAmount(t))
  {
    MatchFromBank(bank, consumed, t);
  }

  /** A non-debit with a negative amount never finds a candidate: its key text
      carries a minus sign and no bank key does. */
  lemma NegativeNonDebitNeverMatches(bank: seq<BankStatement>, consumed: set<Identity>, t: Transaction)
    requires !IsDebit(t) && t.amount < 0
    ensures MatchOf(BuildIndex(bank), consumed, t) == None
  {
    MatchedPairAgrees(bank, consumed, t);
  }

  /** Paired magnitudes lie within one cent of each other. So a pair adds less
      than a cent to the sum, except a debit recorded as negative, which adds
      both magnitudes when they differ, and 0 otherwise. */
  lemma MatchedPairWithinOneCent(bank: seq<BankStatement>, consumed: set<Identity>, t: Transaction)
    ensures MatchOf(BuildIndex(bank), consumed, t).Some? ==>
      var b := MatchOf(BuildIndex(bank), consumed, t).value;
      && -(MillsPerCent as int) < Abs(b.amount) - NormalizedAmount(t) < MillsPerCent
      && (t.amount >= 0 ==> Discrepancy(t, b) < MillsPerCent)
      && (t.amount < 0 ==> IsDebit(t) && Discrepancy(t, b) == if Abs(t.amount) == Abs(b.amount) then 0 else Abs(t.amount) + Abs(b.amount))
  {
    MatchedPairAgrees(bank, consumed, t);
  }

  /** The unmatched list of a prefix is a prefix of the final unmatched list. */
  lemma {:induction false} UnmatchedOnlyGrows(idx: Index, ts: seq<Transaction>, n: nat)
    requires n <= |ts|
    ensures MatchAll(idx, ts[..n]).unmatchedSystem <= MatchAll(idx, ts).unmatchedSystem
    decreases |ts|
  {
    if n < |ts| {
      var pre := ts[..|ts| - 1];
      assert pre[..n] == ts[..n];
      UnmatchedOnlyGrows(idx, pre, n);
    } else {
      assert ts[..n] == ts;
    }
  }

  /** A non-debit with a negative amount always ends in the unmatched system list. */
  lemma NegativeNonDebitReported(sys: seq<Transaction>, bank: seq<BankStatement>, i: nat)
    requires i < |sys| && !IsDebit(sys[i]) && sys[i].amount < 0
    ensures sys[i] in Run(sys, bank).totalUnmatchedSystem
  {
    var idx := BuildIndex(bank);
    NegativeNonDebitInPass(bank, sys, i);
    assert Run(sys, bank).totalUnmatchedSystem == MatchAll(idx, sys).unmatchedSystem;
  }

  lemma NegativeNonDebitInPass(bank: seq<BankStatement>, sys: seq<Transaction>, i: nat)
    requires i < |sys| && !IsDebit(sys[i]) && sys[i].amount < 0
    ensures sys[i] in MatchAll(BuildIndex(bank), sys).unmatchedSystem
  {
    var idx := BuildIndex(bank);
    NegativeNonDebitNeverMatches(bank, MatchAll(idx, sys[..i]).consumed, sys[i]);
    UnmatchedStep(idx, sys, i);
    UnmatchedOnlyGrows(idx, sys, i + 1);
    LastOfPrefixIn(MatchAll(idx, sys[..i + 1]).unmatchedSystem, MatchAll(idx, sys).unmatchedSystem, sys[i]);
  }

  /** A transaction without a free statement is appended to the unmatched list. */
  lemma UnmatchedStep(idx: Index, ts: seq<Transaction>, n: nat)
    requires n < |ts| && MatchOf(idx, MatchAll(idx, ts[..n]).consumed, ts[n]) == None
    ensures MatchAll(idx, ts[..n + 1]).unmatchedSystem == MatchAll(idx, ts[..n]).unmatchedSystem + [ts[n]]
  {
    assert ts[..n] + [ts[n]] == ts[..n + 1];
    MatchAllSnoc(idx, ts[..n], ts[n]);
  }

  /** With whole-cent amounts everywhere, a key match forces equal magnitudes,
      so no pair ever contributes to the discrepancy sum. */
  lemma {:induction false} WholeCentsMatchAll(bank: seq<BankStatement>, ts: seq<Transaction>)
    requires forall b :: b in bank ==> WholeCents(b.amount)
    requires forall t :: t in ts ==> WholeCents(t.amount)
    ensures MatchAll(BuildIndex(bank), ts).discrepancySum == 0
    decreases |ts|
  {
    if |ts| > 0 {
      var idx := BuildIndex(bank);
      var t := ts[|ts| - 1];
      var prev := MatchAll(idx, ts[..|ts| - 1]);
      WholeCentsMatchAll(bank, ts[..|ts| - 1]);
      var m := MatchOf(idx, prev.consumed, t);
      if m.Some? {
        var b := m.value;
        MatchFromBank(bank, prev.consumed, t);
        AbsKeepsWholeCents(b.amount);
        AbsKeepsWholeCents(t.amount);
        Format2InjectiveOnWholeCents(Abs(b.amount), NormalizedAmount(t));
        assert Discrepancy(t, b) == 0;
      }
    }
  }

  lemma WholeCentsNoDiscrepancy(sys: seq<Transaction>, bank: seq<BankStatement>)
    requires forall b :: b in bank ==> WholeCents(b.amount)
    requires forall t :: t in sys ==> WholeCents(t.amount)
    ensures Run(sys, bank).totalDiscrepancySum == 0
  {
    WholeCentsMatchAll(bank, sys);
  }

  /** For a debit recorded as a negative amount the source's formula
      |sys - |bank|| adds both magnitudes rather than their difference when the
      magnitudes differ. */
  lemma NegativeDebitDiscrepancy(t: Transaction, b: BankStatement)
    requires IsDebit(t) && t.amount < 0 && Abs(t.amount) != Abs(b.amount)
    ensures Discrepancy(t, b) == Abs(t.amount) + Abs(b.amount)
  {
  }

  /** When no two bank statements share an identity, every statement is either
      consumed by exactly one match or listed as unmatched. */
  lemma OneToOneBankCount(sys: seq<Transaction>, bank: seq<BankStatement>)
    requires forall i, j :: 0 <= i < j < |bank| ==> IdentityOf(bank[i]) != IdentityOf(bank[j])
    ensures Run(sys, bank).totalMatched + |Run(sys, bank).totalUnmatchedBank| == |bank|
  {
    var c := Consumed(sys, bank);
    ConsumedAreBankIdentities(bank, sys);
    UnmatchedBankCount(bank, c);
    assert c * IdentitiesOf(bank) == c;
  }

  lemma {:induction false} UnmatchedBankCount(bank: seq<BankStatement>, c: set<Identity>)
    requires forall i, j :: 0 <= i < j < |bank| ==> IdentityOf(bank[i]) != IdentityOf(bank[j])
    ensures |UnmatchedBank(bank, c)| + |c * IdentitiesOf(bank)| == |bank|
    decreases |bank|
  {
    if |bank| > 0 {
      var pre := bank[..|bank| - 1];
      var b := bank[|bank| - 1];
      assert bank == pre + [b];
      LastIdentityIsNew(pre, b);
      UnmatchedBankCount(pre, c);
      UnmatchedBankSnoc(pre, b, c);
      IdentitiesSnoc(pre, b, c);
    }
  }

  lemma LastIdentityIsNew(pre: seq<BankStatement>, b: BankStatement)
    requires forall i, j :: 0 <= i < j < |pre + [b]| ==> IdentityOf((pre + [b])[i]) != IdentityOf((pre + [b])[j])
    ensures forall i, j :: 0 <= i < j < |pre| ==> IdentityOf(pre[i]) != IdentityOf(pre[j])
    ensures IdentityOf(b) !in IdentitiesOf(pre)
  {
    var bank := pre + [b];
    forall j | 0 <= j < |pre|
      ensures IdentityOf(pre[j]) != IdentityOf(b)
    {
      assert pre[j] == bank[j] && b == bank[|pre|];
    }
    forall i, j | 0 <= i < j < |pre|
      ensures IdentityOf(pre[i]) != IdentityOf(pre[j])
    {
      assert pre[i] == bank[i] && pre[j] == bank[j];
    }
  }

  lemma IdentitiesSnoc(pre: seq<BankStatement>, b: BankStatement, c: set<Identity>)
    requires IdentityOf(b) !in IdentitiesOf(pre)
    ensures |c * IdentitiesOf(pre + [b])| == |c * IdentitiesOf(pre)| + (if IdentityOf(b) in c then 1 else 0)
  {
    IdentitiesOfSnoc(pre, b);
    IntersectionWithNew(c, IdentitiesOf(pre), IdentityOf(b));
  }

  lemma IdentitiesOfSnoc(pre: seq<BankStatement>, b: BankStatement)
    ensures IdentitiesOf(pre + [b]) == IdentitiesOf(pre) + {IdentityOf(b)}
  {
    var bank := pre + [b];
    forall x | x in bank
      ensures x in pre || x == b
    {
      var j :| 0 <= j < |bank| && bank[j] == x;
      if j < |pre| {
        assert pre[j] == x;
      }
    }
    assert forall x :: x in pre ==> x in bank;
  }
}

=== FILE: matching_loop.dfy ===
/** The matching engine as the service writes it: mutable maps and sets,
    three loops, an early exit once a candidate is taken. */
module MatchingLoop {
  import opened Wrappers
  import opened Models
  import opened Matching

  /** Produces exactly the report the functional engine defines. */
  method RunLoop(sys: seq<Transaction>, bank: seq<BankStatement>) returns (report: Report)
    ensures report == Run(sys, bank)
  {
    var idx := IndexLoop(bank);
    var progress := MatchLoop(idx, sys);
    var unmatchedBank := UnmatchedBankLoop(bank, progress.consumed);
    report := Report(|sys|, |bank|, progress.matched, progress.unmatchedSystem, unmatchedBank, progress.discrepancySum);
  }

  /** Appends every statement to the list under its key. */
  method IndexLoop(bank: seq<BankStatement>) returns (idx: Index)
    ensures idx == BuildIndex(bank)
  {
    idx := map[];
    var i := 0;
    while i < |bank|
      invariant i <= |bank|
      invariant idx == BuildIndex(bank[..i])
    {
      var k := BankKey(bank[i]);
      var bucket := if k in idx then idx[k] else [];
      BuildIndexStep(bank, i);
      idx := idx[k := bucket + [bank[i]]];
      i := i + 1;
    }
    assert bank[..i] == bank;
  }

  /** Scans the candidates under `t`'s key for the first free identity. */
  method MatchOne(idx: Index, before: Progress, t: Transaction) returns (after: Progress)
    ensures after == Step(idx, before, t)
  {
    var key := TrxKey(t);
    after := before;
    if key in idx {
      var cands := idx[key];
      var j := 0;
      while j < |cands|
        invariant j <= |cands|
        invariant forall m :: 0 <= m < j ==> Identity(cands[m].uniqueIdentifier, key) in before.consumed
      {
        var id := Identity(cands[j].uniqueIdentifier, key);
        if id !in before.consumed {
          assert FirstFree(cands, key, before.consumed) == Some(j);
          after := Progress(before.matched + 1, before.unmatchedSystem,
                            before.discrepancySum + Discrepancy(t, cands[j]), before.consumed + {id});
          return;
        }
        j := j + 1;
      }
    }
    after := Progress(before.matched, before.unmatchedSystem + [t], before.discrepancySum, before.consumed);
  }

  /** Runs every system transaction through the index, in input order. */
  method MatchLoop(idx: Index, sys: seq<Transaction>) returns (p: Progress)
    ensures p == MatchAll(idx, sys)
  {
    p := Progress(0, [], 0, {});
    var n := 0;
    while n < |sys|
      invariant n <= |sys|
      invariant p == MatchAll(idx, sys[..n])
    {
      p := MatchOne(idx, p, sys[n]);
      assert sys[..n + 1][..n] == sys[..n];
      n := n + 1;
    }
    assert sys[..n] == sys;
  }

  /** Lists the statements whose identity was never consumed. */
  method UnmatchedBankLoop(bank: seq<BankStatement>, consumed: set<Identity>) returns (u: seq<BankStatement>)
    ensures u == UnmatchedBank(bank, consumed)
  {
    u := [];
    var i := 0;
    while i < |bank|
      invariant i <= |bank|
      invariant u == UnmatchedBank(bank[..i], consumed)
    {
      if IdentityOf(bank[i]) !in consumed {
        u := u + [bank[i]];
      }
      assert bank[..i + 1][..i] == bank[..i];
      i := i + 1;
    }
    assert bank[..i] == bank;
  }
}

=== FILE: models.dfy ===
/** The records the service reads and the report it produces. */
module Models {

  /** A calendar day, as a day number. Dates are parsed with layout 2006-01-02,
      so every time value the service handles is a midnight. */
  type Day = int

  /** The transaction type that marks a debit; any other text is a non-debit.
      The value of `models.DEBIT` is assumed to be this text. */
  const Debit: string := "DEBIT"

  /** A system-side transaction. `kind` keeps the raw type text of the CSV row. */
  datatype Transaction = Transaction(trxId: string, amount: int, kind: string, transactionTime: Day)

  /** A bank-side statement line. */
  datatype BankStatement = BankStatement(uniqueIdentifier: string, amount: int, date: Day)

  /** The reconciliation summary. Amounts, including the discrepancy sum, are in mills. */
  datatype Report = Report(
    totalProcessedSystemTrx: nat,
    totalProcessedBankStmnt: nat,
    totalMatched: nat,
    totalUnmatchedSystem: seq<Transaction>,
    totalUnmatchedBank: seq<BankStatement>,
    totalDiscrepancySum: int)

  /** The report as first allocated, before anything is loaded. */
  function EmptyReport(): Report {
    Report(0, 0, 0, [], [], 0)
  }

  /** All counts and the sum are zero and both unmatched lists are empty. */
  predicate IsEmptyReport(r: Report) {
    && r.totalProcessedSystemTrx == 0
    && r.totalProcessedBankStmnt == 0
    && r.totalMatched == 0
    && r.totalUnmatchedSystem == []
    && r.totalUnmatchedBank == []
    && r.totalDiscrepancySum == 0
  }
}

=== FILE: repository.dfy ===
/** The CSV loaders: after the file is opened, the first record is skipped as
    the header, rows that are too short or do not parse are dropped, and the
    rows whose day lies in [start, end] are kept, in file order. */
module Repository {
  import opened Wrappers
  import opened Models

  /** One record as the CSV reader hands it over: its fields, or a read error. */
  datatype CsvRecord = Fields(values: seq<string>) | Unreadable

  /** The text parsers the loaders call: `amount` stands for strconv.ParseFloat
      (yielding mills, so only finite amounts with at most three decimals), `date`
      for time.Parse with layout 2006-01-02 (yielding a day number). Either may
      reject its text. */
  datatype Parsers = Parsers(amount: string -> Option<int>, date: string -> Option<Day>)

  // ---------------------------------------------------------------------------
  // Row-level filter, shared by both loaders

  /** Whether a data row yields a record: it parses and its day lies in [start, end]. */
  predicate Kept<T>(parse: seq<string> -> Option<T>, day: T -> Day, start: Day, end: Day, row: seq<string>) {
    parse(row).Some? && start <= day(parse(row).value) <= end
  }

  /** The loop over data rows: each row is parsed, skipped on failure, and its
      record appended when its day is in range. */
  function FilterRows<T>(rows: seq<seq<string>>, parse: seq<string> -> Option<T>, day: T -> Day, start: Day, end: Day): (out: seq<T>)
    ensures |out| <= |rows|
    decreases |rows|
  {
    if |rows| == 0 then []
    else
      var prev := FilterRows(rows[..|rows| - 1], parse, day, start, end);
      var row := rows[|rows| - 1];
      if Kept(parse, day, start, end, row) then prev + [parse(row).value] else prev
  }

  /** Reference definition: the positions of the rows that yield a record. */
  function KeptIndices<T>(rows: seq<seq<string>>, parse: seq<string> -> Option<T>, day: T -> Day, start: Day, end: Day): (ks: seq<nat>)
    ensures forall a, b :: 0 <= a < b < |ks| ==> ks[a] < ks[b]
    ensures forall a :: 0 <= a < |ks| ==> ks[a] < |rows| && Kept(parse, day, start, end, rows[ks[a]])
    ensures forall i :: 0 <= i < |rows| && Kept(parse, day, start, end, rows[i]) ==> i in ks
    decreases |rows|
  {
    if |rows| == 0 then []
    else
      var prev := KeptIndices(rows[..|rows| - 1], parse, day, start, end);
      assert forall a :: 0 <= a < |prev| ==> rows[prev[a]] == rows[..|rows| - 1][prev[a]];
      if Kept(parse, day, start, end, rows[|rows| - 1]) then prev + [|rows| - 1] else prev
  }

  /** Output order is row order and each output record is the parse of exactly
      one kept row: the k-th record comes from the k-th kept row. */
  lemma {:induction false} FilterRowsFollowsRows<T>(rows: seq<seq<string>>, parse: seq<string> -> Option<T>, day: T -> Day, start: Day, end: Day)
    ensures |FilterRows(rows, parse, day, start, end)| == |KeptIndices(rows, parse, day, start, end)|
    ensures forall a :: 0 <= a < |KeptIndices(rows, parse, day, start, end)| ==>
      FilterRows(rows, parse, day, start, end)[a] == parse(rows[KeptIndices(rows, parse, day, start, end)[a]]).value
    decreases |rows|
  {
    if |rows| > 0 {
      var pre := rows[..|rows| - 1];
      FilterRowsFollowsRows(pre, parse, day, start, end);
      var ks := KeptIndices(pre, parse, day, start, end);
      var out := FilterRows(pre, parse, day, start, end);
      forall a | 0 <= a < |ks|
        ensures out[a] == parse(rows[ks[a]]).value
      {
        assert rows[ks[a]] == pre[ks[a]];
      }
    }
  }

  /** Every record the filter yields has its day in [start, end]. */
  lemma {:induction false} FilterRowsInRange<T>(rows: seq<seq<string>>, parse: seq<string> -> Option<T>, day: T -> Day, start: Day, end: Day)
    ensures forall a :: 0 <= a < |FilterRows(rows, parse, day, start, end)| ==>
      start <= day(FilterRows(rows, parse, day, start, end)[a]) <= end
    decreases |rows|
  {
    if |rows| > 0 {
      FilterRowsInRange(rows[..|rows| - 1], parse, day, start, end);
    }
  }

  // ---------------------------------------------------------------------------
  // Loading an opened file

  /** The fields of records that were all read successfully. */
  function RowsOf(records: seq<CsvRecord>): (rows: seq<seq<string>>)
    requires forall i :: 0 <= i < |records| ==> records[i].Fields?
    ensures |rows| == |records|
    ensures forall i :: 0 <= i < |records| ==> rows[i] == records[i].values
  {
    seq(|records|, i requires 0 <= i < |records| => records[i].values)
  }

  /** An opened file: a missing or unreadable header, or any unreadable record,
      fails the whole load; otherwise the data rows go through the filter. */
  function LoadRows<T>(records: seq<CsvRecord>, parse: seq<string> -> Option<T>, day: T -> Day, start: Day, end: Day): (r: Option<seq<T>>)
    ensures r.None? <==> |records| == 0 || exists i :: 0 <= i < |records| && records[i].Unreadable?
    ensures r.Some? ==> |r.value| < |records|
  {
    if |records| == 0 || records[0].Unreadable? then None
    else if exists i :: 1 <= i < |records| && records[i].Unreadable? then None
    else Some(FilterRows(RowsOf(records[1..]), parse, day, start, end))
  }

  /** Every loaded record has its day in [start, end]. */
  lemma LoadRowsInRange<T>(records: seq<CsvRecord>, parse: seq<string> -> Option<T>, day: T -> Day, start: Day, end: Day)
    ensures LoadRows(records, parse, day, start, end).Some? ==>
      forall x :: x in LoadRows(records, parse, day, start, end).value ==> start <= day(x) <= end
  {
    if LoadRows(records, parse, day, start, end).Some? {
      FilterRowsInRange(RowsOf(records[1..]), parse, day, start, end);
    }
  }

  /** The header's contents never matter: it never yields a record. */
  lemma HeaderIsNotData<T>(h1: seq<string>, h2: seq<string>, rest: seq<CsvRecord>,
                           parse: seq<string> -> Option<T>, day: T -> Day, start: Day, end: Day)
    ensures LoadRows([Fields(h1)] + rest, parse, day, start, end) == LoadRows([Fields(h2)] + rest, parse, day, start, end)
  {
    assert ([Fields(h1)] + rest)[1..] == rest;
    assert ([Fields(h2)] + rest)[1..] == rest;
  }

  /** A data row that does not parse, or lies outside [start, end], is skipped
      and loading goes on as if it were not there. */
  lemma SkippedRowIsDropped<T>(records: seq<CsvRecord>, row: seq<string>,
                               parse: seq<string> -> Option<T>, day: T -> Day, start: Day, end: Day)
    requires |records| > 0
    requires !Kept(parse, day, start, end, row)
    ensures LoadRows(records + [Fields(row)], parse, day, start, end) == LoadRows(records, parse, day, start, end)
  {
    AppendRow(records, row, parse, day, start, end);
  }

  /** A data row that parses to a record in range is appended after the earlier ones. */
  lemma KeptRowIsAppended<T>(records: seq<CsvRecord>, row: seq<string>,
                             parse: seq<string> -> Option<T>, day: T -> Day, start: Day, end: Day)
    requires LoadRows(records, parse, day, start, end).Some?
    requires Kept(parse, day, start, end, row)
    ensures LoadRows(records + [Fields(row)], parse, day, start, end)
         == Some(LoadRows(records, parse, day, start, end).value + [parse(row).value])
  {
    AppendRow(records, row, parse, day, start, end);
  }

  lemma AppendRow<T>(records: seq<CsvRecord>, row: seq<string>,
                     parse: seq<string> -> Option<T>, day: T -> Day, start: Day, end: Day)
    requires |records| > 0
    ensures LoadRows(records + [Fields(row)], parse, day, start, end) ==
      match LoadRows(records, parse, day, start, end)
      case None => None
      case Some(prev) => Some(if Kept(parse, day, start, end, row) then prev + [parse(row).value] else prev)
  {
    var recs := records + [Fields(row)];
    assert recs[0] == records[0];
    if !exists i :: 0 <= i < |records| && records[i].Unreadable? {
      assert forall i :: 0 <= i < |recs| ==> recs[i].Fields?;
      assert RowsOf(recs[1..]) == RowsOf(records[1..]) + [row];
      assert RowsOf(recs[1..])[..|RowsOf(recs[1..])| - 1] == RowsOf(records[1..]);
    } else {
      var i :| 0 <= i < |records| && records[i].Unreadable?;
      assert recs[i].Unreadable?;
    }
  }

  // ---------------------------------------------------------------------------
  // The two loaders

  /** Field mapping of a transaction row; fewer than four fields, or an amount
      or time that does not parse, skips the row. Later fields are ignored. */
  function TransactionRow(ps: Parsers, fields: seq<string>): (r: Option<Transaction>)
    ensures r.Some? <==> |fields| >= 4 && ps.amount(fields[1]).Some? && ps.date(fields[3]).Some?
    ensures r.Some? ==> r.value == Transaction(fields[0], ps.amount(fields[1]).value, fields[2], ps.date(fields[3]).value)
  {
    if |fields| < 4 then None
    else
      match ps.amount(fields[1])
      case None => None
      case Some(amount) =>
        match ps.date(fields[3])
        case None => None
        case Some(time) => Some(Transaction(fields[0], amount, fields[2], time))
  }

  /** Field mapping of a bank row; fewer than three fields, or an amount or
      date that does not parse, skips the row. Later fields are ignored. */
  function BankStatementRow(ps: Parsers, fields: seq<string>): (r: Option<BankStatement>)
    ensures r.Some? <==> |fields| >= 3 && ps.amount(fields[1]).Some? && ps.date(fields[2]).Some?
    ensures r.Some? ==> r.value == BankStatement(fields[0], ps.amount(fields[1]).value, ps.date(fields[2]).value)
  {
    if |fields| < 3 then None
    else
      match ps.amount(fields[1])
      case None => None
      case Some(amount) =>
        match ps.date(fields[2])
        case None => None
        case Some(date) => Some(BankStatement(fields[0], amount, date))
  }

  lemma ExtraTransactionFieldsIgnored(ps: Parsers, fields: seq<string>, extra: seq<string>)
    requires |fields| >= 4
    ensures TransactionRow(ps, fields + extra) == TransactionRow(ps, fields)
  {
  }

  lemma ExtraBankFieldsIgnored(ps: Parsers, fields: seq<string>, extra: seq<string>)
    requires |fields| >= 3
    ensures BankStatementRow(ps, fields + extra) == BankStatementRow(ps, fields)
  {
  }

  function TransactionParser(ps: Parsers): seq<string> -> Option<Transaction> {
    row => TransactionRow(ps, row)
  }

  function TransactionDay(t: Transaction): Day {
    t.transactionTime
  }

  function BankStatementParser(ps: Parsers): seq<string> -> Option<BankStatement> {
    row => BankStatementRow(ps, row)
  }

  function BankStatementDay(b: BankStatement): Day {
    b.date
  }

  /** A file is `None` when it cannot be opened, which fails the load. */
  function ReadTransactionsFromCsv(file: Option<seq<CsvRecord>>, ps: Parsers, start: Day, end: Day): (r: Option<seq<Transaction>>)
    ensures file.None? ==> r.None?
    ensures r.Some? ==> forall t :: t in r.value ==> start <= t.transactionTime <= end
  {
    match file
    case None => None
    case Some(records) =>
      LoadRowsInRange(records, TransactionParser(ps), TransactionDay, start, end);
      LoadRows(records, TransactionParser(ps), TransactionDay, start, end)
  }

  function ReadBankStatementsFromCsv(file: Option<seq<CsvRecord>>, ps: Parsers, start: Day, end: Day): (r: Option<seq<BankStatement>>)
    ensures file.None? ==> r.None?
    ensures r.Some? ==> forall b :: b in r.value ==> start <= b.date <= end
  {
    match file
    case None => None
    case Some(records) =>
      LoadRowsInRange(records, BankStatementParser(ps), BankStatementDay, start, end);
      LoadRows(records, BankStatementParser(ps), BankStatementDay, start, end)
  }

  /** A transaction row with fewer than four fields is skipped. */
  lemma ShortTransactionRowSkipped(records: seq<CsvRecord>, row: seq<string>, ps: Parsers, start: Day, end: Day)
    requires |records| > 0 && |row| < 4
    ensures ReadTransactionsFromCsv(Some(records + [Fields(row)]), ps, start, end)
         == ReadTransactionsFromCsv(Some(records), ps, start, end)
  {
    SkippedRowIsDropped(records, row, TransactionParser(ps), TransactionDay, start, end);
  }

  /** A bank row with fewer than three fields is skipped. */
  lemma ShortBankRowSkipped(records: seq<CsvRecord>, row: seq<string>, ps: Parsers, start: Day, end: Day)
    requires |records| > 0 && |row| < 3
    ensures ReadBankStatementsFromCsv(Some(records + [Fields(row)]), ps, start, end)
         == ReadBankStatementsFromCsv(Some(records), ps, start, end)
  {
    SkippedRowIsDropped(records, row, BankStatementParser(ps), BankStatementDay, start, end);
  }

  // ---------------------------------------------------------------------------
  // The reader as configured in the source

  /** The CSV reader with its field count left at the default: once the header
      is read, a later record whose field count differs from the header's is
      reported as a read error instead of being handed over. */
  function EnforceHeaderArity(records: seq<CsvRecord>): (rs: seq<CsvRecord>)
    ensures |rs| == |records|
    ensures |records| > 0 && records[0].Fields? ==>
      forall i :: 1 <= i < |records| ==>
        (rs[i].Unreadable? <==> records[i].Unreadable? || |records[i].values| != |records[0].values|)
  {
    if |records| == 0 || records[0].Unreadable? then records
    else
      seq(|records|, i requires 0 <= i < |records| =>
        if i > 0 && records[i].Fields? && |records[i].values| != |records[0].values| then Unreadable
        else records[i])
  }

  /** The loader as written: it reads through the arity-enforcing reader. */
  function LoadRowsAsWritten<T>(records: seq<CsvRecord>, parse: seq<string> -> Option<T>, day: T -> Day, start: Day, end: Day): (r: Option<seq<T>>)
    ensures (exists i :: 1 <= i < |records| && records[i].Fields? && records[0].Fields? && |records[i].values| != |records[0].values|) ==> r.None?
  {
    var rs := EnforceHeaderArity(records);
    assert forall i :: 1 <= i < |records| && records[i].Fields? && records[0].Fields? && |records[i].values| != |records[0].values| ==> rs[i].Unreadable?;
    LoadRows(rs, parse, day, start, end)
  }

  /** As written, a data row shorter than a four-column header fails the whole
      transaction load, where the arity check means to skip it. */
  lemma ShortRowAbortsAsWritten(ps: Parsers, start: Day, end: Day)
    ensures
      var records := [Fields(["trxID", "amount", "type", "transactionTime"]), Fields(["T1", "10.00", "CREDIT"])];
      && LoadRowsAsWritten(records, TransactionParser(ps), TransactionDay, start, end) == None
      && LoadRows(records, TransactionParser(ps), TransactionDay, start, end) == Some([])
  {
    var records := [Fields(["trxID", "amount", "type", "transactionTime"]), Fields(["T1", "10.00", "CREDIT"])];
    assert records[1].Fields? && |records[1].values| != |records[0].values|;
    assert RowsOf(records[1..]) == [["T1", "10.00", "CREDIT"]];
    assert RowsOf(records[1..])[..0] == [];
  }
}

=== FILE: scenarios.dfy ===
/** Worked examples of the engine on small inputs (amounts in mills; day
    19655 is 2023-10-25). */
module Scenarios {
  import opened Wrappers
  import opened Models
  import opened Matching

  const Oct25: Day := 19655
  const Oct26: Day := 19656

  /** A debit of -100.00 pairs with a bank line of 100.00 on the same day. */
  lemma DebitPairsWithMagnitude()
    ensures Run([Transaction("T1", -100000, "DEBIT", Oct25)], [BankStatement("B1", 100000, Oct25)])
         == Report(1, 1, 1, [], [], 0)
  {
    var t := Transaction("T1", -100000, "DEBIT", Oct25);
    var b := BankStatement("B1", 100000, Oct25);
    SinglePair(t, b);
    assert Discrepancy(t, b) == 0;
  }

  /** A sub-cent difference keeps the key and shows up in the discrepancy sum. */
  lemma SubCentDifferenceIsDiscrepancy()
    ensures Run([Transaction("T1", 100004, "CREDIT", Oct25)], [BankStatement("B1", 100000, Oct25)])
         == Report(1, 1, 1, [], [], 4)
  {
    var t := Transaction("T1", 100004, "CREDIT", Oct25);
    var b := BankStatement("B1", 100000, Oct25);
    SinglePair(t, b);
    assert Discrepancy(t, b) == 4;
  }

  /** One transaction against one statement under the same key: they pair. */
  lemma SinglePair(t: Transaction, b: BankStatement)
    requires TrxKey(t) == BankKey(b)
    ensures Run([t], [b]) == Report(1, 1, 1, [], [], Discrepancy(t, b))
  {
    var k := BankKey(b);
    BuildIndexSnoc([], b);
    assert [] + [b] == [b] && [] + [t] == [t];
    var idx := BuildIndex([b]);
    assert idx == map[k := [b]];
    assert FirstFree([b], k, {}) == Some(0);
    assert MatchOf(idx, {}, t) == Some(b);
    MatchAllSnoc(idx, [], t);
    var p := MatchAll(idx, [t]);
    assert p.consumed == {IdentityOf(b)};
    UnmatchedBankSnoc([], b, p.consumed);
  }

  /** Amounts that differ in whole cents land under different keys: no pair,
      both records reported unmatched, nothing added to the discrepancy sum. */
  lemma DifferentCentsNeverPair()
    ensures Run([Transaction("T1", -100000, "DEBIT", Oct25)], [BankStatement("B1", 90000, Oct25)])
         == Report(1, 1, 0, [Transaction("T1", -100000, "DEBIT", Oct25)], [BankStatement("B1", 90000, Oct25)], 0)
  {
    var t := Transaction("T1", -100000, "DEBIT", Oct25);
    var b := BankStatement("B1", 90000, Oct25);
    BuildIndexSnoc([], b);
    assert [] + [b] == [b] && [] + [t] == [t];
    var idx := BuildIndex([b]);
    assert idx == map[BankKey(b) := [b]];
    assert TrxKey(t) != BankKey(b);
    assert MatchOf(idx, {}, t) == None;
    MatchAllSnoc(idx, [], t);
    UnmatchedBankSnoc([], b, {});
  }

  /** A credit with no bank line on its day is reported unmatched. */
  lemma LoneCreditUnmatched()
    ensures Run([Transaction("T2", 50000, "CREDIT", Oct26)], [])
         == Report(1, 0, 0, [Transaction("T2", 50000, "CREDIT", Oct26)], [], 0)
  {
    var t := Transaction("T2", 50000, "CREDIT", Oct26);
    assert [] + [t] == [t];
    MatchAllSnoc(map[], [], t);
  }

  /** Two identical debits and two bank lines sharing their key. */
  const DebitT1 := Transaction("T1", -100000, "DEBIT", Oct25)
  const DebitT3 := Transaction("T3", -100000, "DEBIT", Oct25)
  const LineB1 := BankStatement("B1", 100000, Oct25)
  const LineB2 := BankStatement("B2", 100000, Oct25)

  /** Two identical debits take two same-key bank lines in input order. */
  lemma DuplicateKeysConsumedInOrder()
    ensures Run([DebitT1, DebitT3], [LineB1, LineB2]) == Report(2, 2, 2, [], [], 0)
    ensures MatchOf(BuildIndex([LineB1, LineB2]), {}, DebitT1) == Some(LineB1)
    ensures MatchOf(BuildIndex([LineB1, LineB2]), {IdentityOf(LineB1)}, DebitT3) == Some(LineB2)
  {
    OctoberDebitKeys(DebitT1, DebitT3, LineB1, LineB2);
    TwoPairsInOrder(DebitT1, DebitT3, LineB1, LineB2);
  }

  lemma OctoberDebitKeys(t1: Transaction, t3: Transaction, b1: BankStatement, b2: BankStatement)
    requires t1 == Transaction("T1", -100000, "DEBIT", Oct25) && t3 == Transaction("T3", -100000, "DEBIT", Oct25)
    requires b1 == BankStatement("B1", 100000, Oct25) && b2 == BankStatement("B2", 100000, Oct25)
    ensures TrxKey(t1) == BankKey(b1) && TrxKey(t3) == BankKey(b1) && BankKey(b2) == BankKey(b1)
    ensures b1.uniqueIdentifier != b2.uniqueIdentifier
    ensures Discrepancy(t1, b1) == 0 && Discrepancy(t3, b2) == 0
  {
    assert b1.uniqueIdentifier[1] != b2.uniqueIdentifier[1];
  }

  /** Two statements under one key are indexed as one list, in input order. */
  lemma TwoStatementIndex(b1: BankStatement, b2: BankStatement)
    requires BankKey(b2) == BankKey(b1)
    ensures BuildIndex([b1, b2]) == map[BankKey(b1) := [b1, b2]]
  {
    assert [] + [b1] == [b1] && [b1] + [b2] == [b1, b2];
    BuildIndexSnoc([], b1);
    BuildIndexSnoc([b1], b2);
  }

  /** Two transactions and two distinct statements, all under one key: the
      first transaction takes the first statement, the second the second. */
  lemma TwoPairsInOrder(t1: Transaction, t2: Transaction, b1: BankStatement, b2: BankStatement)
    requires TrxKey(t1) == BankKey(b1) && TrxKey(t2) == BankKey(b1) && BankKey(b2) == BankKey(b1)
    requires b1.uniqueIdentifier != b2.uniqueIdentifier
    ensures MatchOf(BuildIndex([b1, b2]), {}, t1) == Some(b1)
    ensures MatchOf(BuildIndex([b1, b2]), {IdentityOf(b1)}, t2) == Some(b2)
    ensures Run([t1, t2], [b1, b2]) == Report(2, 2, 2, [], [], Discrepancy(t1, b1) + Discrepancy(t2, b2))
  {
    TwoPairsMatch(t1, t2, b1, b2);
    var idx := BuildIndex([b1, b2]);
    TwoMatchSteps(idx, t1, t2, b1, b2);
    TwoConsumed(b1, b2);
  }

  lemma TwoPairsMatch(t1: Transaction, t2: Transaction, b1: BankStatement, b2: BankStatement)
    requires TrxKey(t1) == BankKey(b1) && TrxKey(t2) == BankKey(b1) && BankKey(b2) == BankKey(b1)
    requires b1.uniqueIdentifier != b2.uniqueIdentifier
    ensures MatchOf(BuildIndex([b1, b2]), {}, t1) == Some(b1)
    ensures MatchOf(BuildIndex([b1, b2]), {IdentityOf(b1)}, t2) == Some(b2)
  {
    TwoStatementIndex(b1, b2);
    TwoFirstFree(b1, b2, BankKey(b1));
  }

  lemma TwoFirstFree(b1: BankStatement, b2: BankStatement, k: MatchKey)
    requires BankKey(b1) == k && BankKey(b2) == k && b1.uniqueIdentifier != b2.uniqueIdentifier
    ensures FirstFree([b1, b2], k, {}) == Some(0)
    ensures FirstFree([b1, b2], k, {IdentityOf(b1)}) == Some(1)
  {
    assert [b1, b2][1..] == [b2];
  }

  lemma TwoConsumed(b1: BankStatement, b2: BankStatement)
    ensures UnmatchedBank([b1, b2], {IdentityOf(b1), IdentityOf(b2)}) == []
  {
    assert [] + [b1] == [b1] && [b1] + [b2] == [b1, b2];
    UnmatchedBankSnoc([], b1, {IdentityOf(b1), IdentityOf(b2)});
    UnmatchedBankSnoc([b1], b2, {IdentityOf(b1), IdentityOf(b2)});
  }

  lemma TwoMatchSteps(idx: Index, t1: Transaction, t2: Transaction, b1: BankStatement, b2: BankStatement)
    requires MatchOf(idx, {}, t1) == Some(b1) && BankKey(b1) == TrxKey(t1)
    requires MatchOf(idx, {IdentityOf(b1)}, t2) == Some(b2) && BankKey(b2) == TrxKey(t2)
    ensures MatchAll(idx, [t1, t2]) == Progress(2, [], Discrepancy(t1, b1) + Discrepancy(t2, b2), {IdentityOf(b1), IdentityOf(b2)})
  {
    assert [] + [t1] == [t1] && [t1] + [t2] == [t1, t2];
    MatchAllSnoc(idx, [], t1);
    assert MatchAll(idx, [t1]) == Progress(1, [], Discrepancy(t1, b1), {IdentityOf(b1)});
    MatchAllSnoc(idx, [t1], t2);
  }
}

=== FILE: sequences.dfy ===
/** Order-preserving sub-selection of sequences, and small facts about
    sequences and sets used by the matching proofs. */
module Sequences {

  /** `xs` is obtained from `ys` by deleting elements, keeping the order of the rest. */
  predicate IsSubsequence<T(==)>(xs: seq<T>, ys: seq<T>)
    decreases |ys|
  {
    || |xs| == 0
    || (&& |ys| > 0
        && (|| (xs[|xs| - 1] == ys[|ys| - 1] && IsSubsequence(xs[..|xs| - 1], ys[..|ys| - 1]))
            || IsSubsequence(xs, ys[..|ys| - 1])))
  }

  lemma SubsequenceAppendBoth<T>(xs: seq<T>, ys: seq<T>, x: T)
    requires IsSubsequence(xs, ys)
    ensures IsSubsequence(xs + [x], ys + [x])
  {
    assert (xs + [x])[..|xs|] == xs;
    assert (ys + [x])[..|ys|] == ys;
  }

  lemma SubsequenceAppendRight<T>(xs: seq<T>, ys: seq<T>, y: T)
    requires IsSubsequence(xs, ys)
    ensures IsSubsequence(xs, ys + [y])
  {
    assert (ys + [y])[..|ys|] == ys;
  }

  /** A subsequence is no longer than the sequence and all its elements come from it. */
  lemma {:induction false} SubsequenceMembers<T>(xs: seq<T>, ys: seq<T>)
    requires IsSubsequence(xs, ys)
    ensures |xs| <= |ys|
    ensures forall x :: x in xs ==> x in ys
    decreases |ys|
  {
    if |xs| == 0 {
    } else if xs[|xs| - 1] == ys[|ys| - 1] && IsSubsequence(xs[..|xs| - 1], ys[..|ys| - 1]) {
      SubsequenceMembers(xs[..|xs| - 1], ys[..|ys| - 1]);
      assert xs == xs[..|xs| - 1] + [xs[|xs| - 1]];
      assert ys == ys[..|ys| - 1] + [ys[|ys| - 1]];
    } else {
      SubsequenceMembers(xs, ys[..|ys| - 1]);
      assert ys == ys[..|ys| - 1] + [ys[|ys| - 1]];
    }
  }

  /** The last element of a prefix belongs to the whole sequence. */
  lemma LastOfPrefixIn<T>(u1: seq<T>, u: seq<T>, x: T)
    requires u1 <= u && |u1| > 0 && u1[|u1| - 1] == x
    ensures x in u
  {
    assert u[|u1| - 1] == x;
  }

  /** A subset has no more elements than its superset. */
  lemma {:induction false} SubsetNoLarger<T>(a: set<T>, b: set<T>)
    requires a <= b
    ensures |a| <= |b|
    decreases b
  {
    if a != {} {
      var x :| x in a;
      SubsetNoLarger(a - {x}, b - {x});
    }
  }

  /** Intersecting with a set grown by one new element grows by at most that element. */
  lemma IntersectionWithNew<T>(c: set<T>, s: set<T>, x: T)
    requires x !in s
    ensures |c * (s + {x})| == |c * s| + (if x in c then 1 else 0)
  {
    if x in c {
      assert c * (s + {x}) == (c * s) + {x};
    } else {
      assert c * (s + {x}) == c * s;
    }
  }
}

=== FILE: use_case.dfy ===
/** `UseCase.Reconcile`: load the system transactions and every bank source,
    give up with an empty report when a load fails, otherwise run the engine. */
module UseCase {
  import opened Wrappers
  import opened Models
  import opened Sequences
  import opened Matching
  import opened Repository

  /** Number of statements the successful bank loads hold. */
  function TotalLength(loads: seq<Option<seq<BankStatement>>>): nat
    decreases |loads|
  {
    if |loads| == 0 then 0
    else TotalLength(loads[..|loads| - 1]) + |loads[|loads| - 1].GetOr([])|
  }

  /** The bank sources read one after the other in path order, each appended
      after the previous ones; the first failing source fails them all. */
  function LoadBankSources(loads: seq<Option<seq<BankStatement>>>): (r: Option<seq<BankStatement>>)
    ensures r.Some? <==> forall i :: 0 <= i < |loads| ==> loads[i].Some?
    ensures r.Some? ==> |r.value| == TotalLength(loads)
    decreases |loads|
  {
    if |loads| == 0 then Some([])
    else
      match LoadBankSources(loads[..|loads| - 1])
      case None => None
      case Some(all) =>
        match loads[|loads| - 1]
        case None => None
        case Some(stmts) => Some(all + stmts)
  }

  /** Source `i` occupies its own slice of the concatenation, right after the
      statements of the sources before it. */
  lemma {:induction false} SourcesInPathOrder(loads: seq<Option<seq<BankStatement>>>, i: nat)
    requires LoadBankSources(loads).Some? && i < |loads|
    ensures TotalLength(loads[..i]) + |loads[i].value| <= |LoadBankSources(loads).value|
    ensures LoadBankSources(loads).value[TotalLength(loads[..i])..TotalLength(loads[..i]) + |loads[i].value|] == loads[i].value
    decreases |loads|
  {
    var pre := loads[..|loads| - 1];
    var all := LoadBankSources(pre).value;
    if i < |pre| {
      assert pre[..i] == loads[..i];
      SourcesInPathOrder(pre, i);
    } else {
      assert loads[..i] == pre;
    }
  }

  /** The engine run only when both loads succeed; a failure yields the empty report. */
  function Reconcile(systemLoad: Option<seq<Transaction>>, bankLoads: seq<Option<seq<BankStatement>>>): (r: Report)
    ensures (systemLoad.None? || exists i :: 0 <= i < |bankLoads| && bankLoads[i].None?) ==> IsEmptyReport(r)
    ensures systemLoad.Some? && (forall i :: 0 <= i < |bankLoads| ==> bankLoads[i].Some?) ==>
      && r.totalProcessedSystemTrx == |systemLoad.value|
      && r.totalProcessedBankStmnt == TotalLength(bankLoads)
      && r.totalMatched + |r.totalUnmatchedSystem| == |systemLoad.value|
      && r.totalMatched <= TotalLength(bankLoads)
      && r.totalDiscrepancySum >= 0
  {
    match (systemLoad, LoadBankSources(bankLoads))
    case (Some(sys), Some(bank)) => Run(sys, bank)
    case _ => EmptyReport()
  }

  /** The reports the source's two `select` statements can return. A failed
      load sends its error and then closes its channel; receiving from a closed
      channel succeeds at once with an empty slice, so each `select` may take
      either ready case. */
  function ReconcileOutcomesAsWritten(systemLoad: Option<seq<Transaction>>, bankLoad: Option<seq<BankStatement>>): (rs: set<Report>)
    ensures systemLoad.Some? && bankLoad.Some? ==> |rs| == 1
    ensures systemLoad.None? || bankLoad.None? ==> EmptyReport() in rs
  {
    match (systemLoad, bankLoad)
    case (Some(sys), Some(bank)) => {Run(sys, bank)}
    case (None, Some(bank)) => {EmptyReport(), Run([], bank)}
    case (Some(sys), None) => {EmptyReport(), Run(sys, [])}
    case (None, None) => {EmptyReport(), Run([], [])}
  }

  /** As written, a failed system load can still produce a report that counts
      and lists the bank statements, instead of aborting. */
  lemma FailedLoadMayStillReconcile(b: BankStatement)
    ensures exists r :: r in ReconcileOutcomesAsWritten(None, Some([b])) && !IsEmptyReport(r)
  {
    var r := Run([], [b]);
    assert r.totalProcessedBankStmnt == 1;
    assert r in ReconcileOutcomesAsWritten(None, Some([b]));
  }

  /** As written, a failed bank load can still produce a report that lists every
      system transaction as unmatched. */
  lemma FailedBankLoadMayStillReconcile(t: Transaction)
    ensures exists r :: r in ReconcileOutcomesAsWritten(Some([t]), None) && !IsEmptyReport(r)
  {
    var r := Run([t], []);
    assert r.totalProcessedSystemTrx == 1;
    assert r in ReconcileOutcomesAsWritten(Some([t]), None);
  }

  /** The abort-on-failure report is always one of the schedules the source allows. */
  lemma ReconcileIsOneSchedule(systemLoad: Option<seq<Transaction>>, bankLoads: seq<Option<seq<BankStatement>>>)
    ensures Reconcile(systemLoad, bankLoads) in ReconcileOutcomesAsWritten(systemLoad, LoadBankSources(bankLoads))
  {
  }

  /** The whole service: read the system file and every bank file, then reconcile. */
  function ReconcileCsv(systemFile: Option<seq<CsvRecord>>, bankFiles: seq<Option<seq<CsvRecord>>>,
                        ps: Parsers, start: Day, end: Day): (r: Report)
    ensures forall t :: t in r.totalUnmatchedSystem ==> start <= t.transactionTime <= end
    ensures forall b :: b in r.totalUnmatchedBank ==> start <= b.date <= end
  {
    var sysLoad := ReadTransactionsFromCsv(systemFile, ps, start, end);
    var bankLoads := seq(|bankFiles|, i requires 0 <= i < |bankFiles| => ReadBankStatementsFromCsv(bankFiles[i], ps, start, end));
    BankSourcesInRange(bankLoads, start, end);
    UnmatchedFromInputs(sysLoad, bankLoads);
    Reconcile(sysLoad, bankLoads)
  }

  /** Whatever a report lists as unmatched comes from the loaded inputs. */
  lemma UnmatchedFromInputs(systemLoad: Option<seq<Transaction>>, bankLoads: seq<Option<seq<BankStatement>>>)
    ensures forall t :: t in Reconcile(systemLoad, bankLoads).totalUnmatchedSystem ==>
      systemLoad.Some? && t in systemLoad.value
    ensures forall b :: b in Reconcile(systemLoad, bankLoads).totalUnmatchedBank ==>
      LoadBankSources(bankLoads).Some? && b in LoadBankSources(bankLoads).value
  {
    var r := Reconcile(systemLoad, bankLoads);
    if systemLoad.Some? && LoadBankSources(bankLoads).Some? {
      SubsequenceMembers(r.totalUnmatchedSystem, systemLoad.value);
      SubsequenceMembers(r.totalUnmatchedBank, LoadBankSources(bankLoads).value);
    }
  }

  /** Concatenating in-range sources keeps every statement in range. */
  lemma {:induction false} BankSourcesInRange(loads: seq<Option<seq<BankStatement>>>, start: Day, end: Day)
    requires forall i :: 0 <= i < |loads| && loads[i].Some? ==> forall b :: b in loads[i].value ==> start <= b.date <= end
    ensures LoadBankSources(loads).Some? ==> forall b :: b in LoadBankSources(loads).value ==> start <= b.date <= end
    decreases |loads|
  {
    if |loads| > 0 {
      BankSourcesInRange(loads[..|loads| - 1], start, end);
    }
  }
}

=== FILE: wrappers.dfy ===
/** Optional values: the model's stand-in for Go's `(value, error)` returns and
    `value, ok := m[key]` lookups. */
module Wrappers {

  datatype Option<+T> = None | Some(value: T) {

    /** The carried value, or `default` when there is none. */
    function GetOr(default: T): T {
      match this
      case Some(v) => v
      case None => default
    }
  }
}
